=== FILE: README.md ===
# movie_app client core in Dafny

This project models the decision logic of a React Native movie-discovery client that runs on an Appwrite backend. The remote service is replaced by an abstract store. Each collection is a sequence of documents in listing order, and the account service is a list of users plus the device's one current session. What the service does with each call is an input. For most calls it is an `Answer` (`Succeeds | FailsWith(code)`). Where the service returns a value the client passes on, the input is that value: `account.create` and `createEmailPasswordSession` yield a `Result<User>` and a `Result<Session>`, and the trending list call yields the served documents. A thrown error is `Result.Err(code)`.

The model has six modules: shared types, then one module per piece of logic.

- `Domain` (`domain.dfy`): `Option`, `Result`, `Answer`, the `Movie` payload, the poster URL prefix and the error codes.
- `SearchMetrics` (`search_metrics.dfy`): `updateSearchCount` upserts one counter per search term; `getTrendingMovies` reads the five highest counters.
- `Accounts` (`accounts.dfy`): the session functions `signUp`, `signIn`, `signOut` and `getCurrentUser`.
- `SavedMovies` (`saved_movies.dfy`): `saveMovie`, `removeSavedMovie` and `getSavedMovies`.
- `MovieCard` (`movie_card.dfy`): the save/remove button's `handleAction`, the disabled button, the poster URI and the release year.
- `Layout` (`layout.dfy`): the redirect decision of `InitialLayout` and its loading branch.

Each document the client creates takes its id from `ID.unique()`. The model passes that id in as `newId`, and the promise of `ID.unique()` (the id is fresh) is a precondition where a lemma needs it. An account created by `signUp` arrives whole inside the `Result<User>` input, id included. The model also assumes four service behaviours:

- Deleting an absent document fails with 404.
- `account.get()` and `deleteSession("current")` fail with 401 when there is no session.
- Ordering, limit and equality filtering follow the query the client sends.
- A list call whose query sets no limit returns only the first page of 25 documents. `getSavedMovies` is affected. `updateSearchCount` is not, because it reads only the first match.

The model follows the code as written, including these behaviours a reader might not expect:

- Search terms are used raw, with no trimming or case folding.
- `updateSearchCount` rethrows its failures instead of failing open.
- `getTrendingMovies` returns `undefined` on failure, not an empty list.
- Removing a document that is already gone is an error ("Failed to remove movie"), not an idempotent success.
- A failed `signOut` leaves the session in place.

## Model

| member | source | states |
|---|---|---|
| Domain.PosterUrl | services/appwrite.ts:80 | The stored poster URL is the image-host prefix followed by the poster path, and the path can be read back after the prefix |
| SearchMetrics.ListByTerm | services/appwrite.ts:60-62 | The equality query returns only documents whose term equals the query exactly. It is empty exactly when no document has that term, and its first element is the first such document in listing order |
| SearchMetrics.UpdateCount | services/appwrite.ts:66-73 | Updating by id gives the document with that id the new count and leaves every other document as it was |
| SearchMetrics.UpdateSearchCount | services/appwrite.ts:58-87 | The call fails exactly when the list call or the write fails, with that call's code, so a failure is rethrown and not swallowed. A failed call leaves the collection unchanged |
| SearchMetrics.IncrementsFirstMatch | services/appwrite.ts:64-73 | When a document with the term exists, the first one's count goes up by one, nothing is created and every other document is unchanged |
| SearchMetrics.CreatesOneRecord | services/appwrite.ts:74-82 | When no document has the term, exactly one document is appended, with the query as term, the movie's id and title, count 1 and the prefixed poster URL |
| SearchMetrics.RawQueryIsTheKey | services/appwrite.ts:58-82 | "Dune" and " dune " are distinct keys: searching " dune " leaves the "Dune" counter alone and creates a new counter |
| SearchMetrics.PreservesIds | services/appwrite.ts:66-81 | With a fresh new id, document ids stay unique and no id other than the new one appears |
| SearchMetrics.PreservesAtMostOnePerTerm | services/appwrite.ts:60-82 | Calls run one at a time never create a second document for a term |
| SearchMetrics.TallyStep | services/appwrite.ts:60-86 | The total count of the query grows by exactly one on success, and nothing else changes. A failure changes no total |
| SearchMetrics.RunAllTally | services/appwrite.ts:58-87 | After any sequence of searches run one at a time, each term's total equals its earlier total plus its number of successful searches, and each term still has at most one document |
| SearchMetrics.SearchedTermHasOneCounter | services/appwrite.ts:58-87 | Starting from an empty collection, a term searched successfully at least once has exactly one document, whose count is its number of successful searches |
| SearchMetrics.GetTrendingMovies | services/appwrite.ts:89-103 | A failure yields undefined. On success the served documents are returned unchanged: 5 of them (all, if fewer), sorted by count from highest, taken from the collection, none left out counting more than one returned, and the first counting at least as much as any document |
| SearchMetrics.TopByCountIsTop | services/appwrite.ts:93-96 | Every collection has a reply that meets the limit-5, count-descending contract (the collection sorted by count, cut to the limit), so the reply contract can always be met |
| Accounts.DeleteCurrentSession | services/appwrite.ts:30 | Deleting the current session succeeds exactly when the call goes through and a session exists, and leaves none. Without a session it fails with 401. A failure changes nothing |
| Accounts.AccountGet | services/appwrite.ts:51 | The lookup yields the current session's user exactly when the call goes through and a session exists. Without a session it fails with 401 |
| Accounts.SignIn | services/appwrite.ts:26-38 | The result is exactly the outcome of creating the session, whatever the preliminary delete did. On success the device's current session is the new one. On failure the device has no session if the delete went through, and keeps its old one otherwise. The user list is unchanged |
| Accounts.SignUp | services/appwrite.ts:15-24 | A failed account creation is rethrown with nothing changed. Otherwise the account is added. A sign-in failure is rethrown although the account now exists, and the device is signed out if the preliminary delete went through. On success the created user is returned and the new session is current |
| Accounts.SignOut | services/appwrite.ts:40-47 | Sign-out succeeds exactly when the delete goes through and a session exists, and then leaves no session. Otherwise the delete's error is rethrown (401 without a session) and the state is unchanged; the session is not cleared locally |
| Accounts.GetCurrentUser | services/appwrite.ts:49-55 | Never throws: it yields a user exactly when the lookup succeeds and a session exists, and that user is the session's. Every failure yields null |
| Accounts.SignInIgnoresDeleteFailure | services/appwrite.ts:28-33 | The sign-in outcome, and the state after a successful sign-in, are the same whether the preliminary delete succeeded or failed |
| Accounts.SignInReplacesSession | services/appwrite.ts:28-33 | Signing in while a session exists leaves exactly the new session |
| Accounts.SignUpFailureKeepsAccount | services/appwrite.ts:15-23 | A sign-up whose sign-in fails reports the sign-in error, and the account remains registered, whatever the preliminary session delete did |
| Accounts.SignUpThenUser | services/appwrite.ts:15-33 | When the session opened for the new credentials belongs to the new account, a successful sign-up returns that account and leaves it as the current user |
| Accounts.FailedSignInSignsOut | services/appwrite.ts:28-36 | A sign-in that fails after the preliminary delete went through leaves the device with no current user |
| Accounts.SignOutThenNoUser | services/appwrite.ts:40-55 | After a successful sign-out, the current-user lookup yields null |
| Accounts.SignInThenUser | services/appwrite.ts:26-55 | After a successful sign-in, the current user is the session's user unless the lookup call itself fails |
| Accounts.SignOutThenSignIn | services/appwrite.ts:26-55 | Signing out and then signing in again as the same user restores the same current user |
| SavedMovies.SaveMovie | services/appwrite.ts:106-120 | With no pre-check, a successful save appends one document with the user id, the movie's fields and the prefixed poster URL. Any failure is rethrown and leaves the collection unchanged |
| SavedMovies.RemoveSavedMovie | services/appwrite.ts:122-129 | The delete succeeds exactly when the call goes through and the document exists, and afterwards the id is gone. Not-found and every other failure are rethrown. Other documents are kept |
| SavedMovies.Without | services/appwrite.ts:124 | Deleting by id removes every document with that id, keeps all others, and shrinks the collection when the id was present |
| SavedMovies.WithoutDropsOne | services/appwrite.ts:124 | With unique ids, deleting the document at a position takes out exactly that document and leaves every other in its place in the listing |
| SavedMovies.RemoveDropsOne | services/appwrite.ts:122-129 | A successful `removeSavedMovie` of the document at a position leaves the listing as it was with that one document taken out |
| SavedMovies.OwnedBy | services/appwrite.ts:133-135 | The `userId` equality filter returns exactly the user's documents, all taken from the collection |
| SavedMovies.GetSavedMovies | services/appwrite.ts:131-141 | A failure is rethrown. On success the reply is the user's documents in listing order, cut to the default page of 25, so it holds them all exactly when the user has at most 25 |
| SavedMovies.SaveAddsACopy | services/appwrite.ts:106-115 | Saving a movie the user already saved adds another document for the same (user, movie) pair, unless the service refuses the save |
| SavedMovies.SaveThenListed | services/appwrite.ts:106-136 | A saved document appears in the user's list when the user had fewer than 25 saved documents |
| SavedMovies.SaveBeyondPageUnlisted | services/appwrite.ts:106-136 | When the user already has 25 or more saved documents, a new save is stored but missing from the list |
| SavedMovies.RemoveThenUnlisted | services/appwrite.ts:122-136 | After a successful removal, no user's list contains the removed id |
| SavedMovies.RemoveTwiceFails | services/appwrite.ts:122-129 | Removing the same document a second time fails with not-found and changes nothing |
| SavedMovies.NoSavesListsEmpty | services/appwrite.ts:131-136 | A user with no saved documents gets an empty list, not an error |
| SavedMovies.SaveKeepsIdsUnique | services/appwrite.ts:106-115 | Saving with a fresh id keeps document ids unique |
| MovieCard.DocIdOf | components/MovieCard.tsx:20 | The card counts as saved exactly when `savedDocId` is present and non-empty (truthy) |
| MovieCard.FailureAlert | components/MovieCard.tsx:30-35 | Code 409 gives exactly the alert ("Info", "Movie is already saved") whichever action was attempted. Any other code gives exactly ("Error", "Failed to remove movie") or ("Error", "Failed to save movie"), naming the attempted action |
| MovieCard.HandleAction | components/MovieCard.tsx:12-39 | With no user there is no call, no processing and only the login alert. Otherwise exactly one call is made: a removal when `savedDocId` is truthy, otherwise a save under the user's id. Processing is set true and then false. A refresh happens only after a successful removal that deleted the document. Code 409 always shows "already saved". Any other error shows "Failed to remove movie" or "Failed to save movie", chosen by `savedDocId`. A successful call shows "added" or "removed", except that a removal of an absent document fails. A success alert means the call succeeded. After "added" the collection gains exactly the document for the user and movie; after "removed" only the card's document is gone and every other saved document is kept. Every other alert leaves the collection unchanged |
| MovieCard.Press | components/MovieCard.tsx:77-81 | While the card is processing the button is disabled and a press does nothing. Otherwise a press runs `handleAction` |
| MovieCard.RefreshExactlyAfterRemoval | components/MovieCard.tsx:20-29 | `onRefresh` fires exactly when a user is present, the card is saved, the callback was given and the removal succeeded. It never fires after a save or a failure |
| MovieCard.HandleRemovalDropsOne | components/MovieCard.tsx:20-23 | Pressing a saved card whose document is at a position shows "removed" and leaves the saved list as it was, in order, with only that document taken out |
| MovieCard.RemovingAbsentDocumentFails | components/MovieCard.tsx:20-35 | Removing a card whose document is already gone shows "Failed to remove movie", does not refresh, and leaves the collection unchanged |
| MovieCard.SaveFilesUnderUser | components/MovieCard.tsx:25-28 | A successful save shows the "added" alert, and the card's movie then appears in the user's saved list when that list had room on its first page |
| MovieCard.PosterUri | components/MovieCard.tsx:46-50 | The placeholder is used exactly when the poster path is empty. Otherwise the URI is the prefix followed by the path |
| MovieCard.ReleaseYear | components/MovieCard.tsx:68 | The year is the longest prefix of the date that contains no '-': it is the whole date, or it stops just before the first '-' |
| MovieCard.ReleaseYearOfDate | components/MovieCard.tsx:68 | For a year that contains no '-', splitting `year-rest` gives back the year, and the year alone splits to itself |
| Layout.RedirectFor | app/_layout.tsx:12-22 | No redirect while loading. Redirect to "/" exactly when logged in inside `(auth)`. Redirect to "/sign-in" exactly when logged out outside it. At most one redirect per evaluation |
| Layout.ScreenFor | app/_layout.tsx:24-38 | The loading indicator is rendered exactly while loading |
| Layout.RedirectsExactlyWhenUnsettled | app/_layout.tsx:15-21 | After loading, the layout redirects exactly when the route group disagrees with the login state, and only towards the group that agrees |
| Layout.DependsOnFirstSegmentOnly | app/_layout.tsx:15 | Two routes with the same first segment get the same decision |
| Layout.RedirectSettles | app/_layout.tsx:15-21 | Assuming "/sign-in" lies in `(auth)` and "/" does not, the route a redirect lands on triggers no further redirect |

## Left out

- Appwrite SDK internals, transport, endpoint and project configuration (services/appwrite.ts:1-12): each remote call's success or failure is an input.
- Concurrency: the lost-update race of the read-then-write increment across devices, and overlapping button presses. Only sequential executions are modelled.
- React rendering, styling, `Link` and router mechanics, `Alert` display and `GlobalProvider`. `isLoading`, `isLoggedIn` and the current user are inputs.
- The rating `Math.round(vote_average / 2)` (components/MovieCard.tsx:62): it uses floating point. `vote_average` is carried as an opaque `real`.
- The `console.error` logging in the catch blocks that have it: it has no effect on results.
- A `null` or `undefined` `poster_path` or `release_date`: the model uses strings, with the empty string for a missing poster path.
- SearchMetrics.GetTrendingMovies: the limit and ordering are the service's promise about its reply, taken as a precondition and not recomputed. The reply is passed through unchanged. TopByCountIsTop shows the promise can always be kept. Ties in count are left to the service, so which of several equal-count documents is served is not stated.
- SearchMetrics.UpdateSearchCount: counts are unbounded integers; the 64-bit limit of the service's integer attribute is not modelled.
- Accounts.SignUp: which account a session belongs to is the service's answer, so a successful sign-up is shown to leave the new account current only under the hypothesis of SignUpThenUser that the session is the new account's.
- Accounts.SignIn: the model tracks only the device's current session, not the service's list of sessions. A session the service keeps after a failed preliminary delete cannot be represented, and SignInReplacesSession and SignInIgnoresDeleteFailure rely partly on that.
- Accounts.SignIn: credential checking belongs to the service. The outcome of `createEmailPasswordSession` is an input, so email and password do not appear.
- The spreading of the saved documents into cards in app/(tabs)/saved.tsx, which rewrites the poster URL back to a relative path: it is not part of this model.

=== FILE: accounts.dfy ===
/** The authentication functions of services/appwrite.ts: `signUp`, `signIn`,
    `signOut` and `getCurrentUser`. The account service keeps the registered
    users and the device's one current session; the answers it gives to each
    call are inputs. */
module Accounts {
  import opened Domain

  /** An account as `account.create` and `account.get` return it. */
  datatype User = User(id: string, name: string, email: string)

  /** A session as `createEmailPasswordSession` returns it. */
  datatype Session = Session(id: string, user: User)

  /** What the account service holds for this device. */
  datatype AuthState = AuthState(users: seq<User>, current: Option<Session>)

  /** Outcome of one call together with the state it leaves behind. */
  datatype Step<T> = Step(result: Result<T>, state: AuthState)

  /** `account.deleteSession("current")`: on success the device has no
      session any more; a failed call leaves the state alone. */
  function DeleteCurrentSession(st: AuthState, answer: Answer): (r: Step<()>)
    ensures r.result.Ok? ==> r.state == st.(current := None)
    ensures r.result.Err? ==> r.state == st
    ensures r.result.Ok? <==> answer.Succeeds? && st.current.Some?
    ensures r.result.Err? ==> r.result.code == (if answer.FailsWith? then answer.code else Unauthorized)
  {
    if answer.FailsWith? then Step(Err(answer.code), st)
    else if st.current.None? then Step(Err(Unauthorized), st)
    else Step(Ok(()), st.(current := None))
  }

  /** `account.get()`: the user of the current session. Without a session the
      service refuses the call. */
  function AccountGet(st: AuthState, answer: Answer): (r: Result<User>)
    ensures r.Ok? <==> answer.Succeeds? && st.current.Some?
    ensures r.Ok? ==> r.value == st.current.value.user
    ensures r.Err? ==> r.code == (if answer.FailsWith? then answer.code else Unauthorized)
  {
    if answer.FailsWith? then Err(answer.code)
    else if st.current.None? then Err(Unauthorized)
    else Ok(st.current.value.user)
  }

  /** `signIn(email, password)`: best-effort removal of the current session,
      whose failure is swallowed, then `createEmailPasswordSession`, whose
      outcome `created` (the service's verdict on the credentials) is passed
      through or rethrown. */
  function SignIn(st: AuthState, deleteAnswer: Answer, created: Result<Session>): (r: Step<Session>)
    ensures r.result == created
    ensures r.result.Ok? ==> r.state == st.(current := Some(created.value))
    ensures r.result.Err? ==> r.state.current == (if deleteAnswer.Succeeds? then None else st.current)
    ensures r.state.users == st.users
  {
    var afterDelete := DeleteCurrentSession(st, deleteAnswer).state;
    match created
    case Err(code) => Step(Err(code), afterDelete)
    case Ok(session) => Step(Ok(session), afterDelete.(current := Some(session)))
  }

  /** `signUp(email, password, name)`: `account.create`, then `signIn`.
      Either failure is rethrown; a failing sign-in leaves the new account in
      place. On success the created user is returned. */
  function SignUp(
    st: AuthState, createdUser: Result<User>, deleteAnswer: Answer,
    created: Result<Session>): (r: Step<User>)
    ensures createdUser.Err? ==> r == Step(Err(createdUser.code), st)
    ensures createdUser.Ok? ==> r.state.users == st.users + [createdUser.value]
    ensures createdUser.Ok? && created.Err? ==>
      && r.result == Err(created.code)
      && r.state.current == (if deleteAnswer.Succeeds? then None else st.current)
    ensures createdUser.Ok? && created.Ok? ==>
      && r.result == Ok(createdUser.value)
      && r.state.current == Some(created.value)
  {
    match createdUser
    case Err(code) => Step(Err(code), st)
    case Ok(user) =>
      var registered := st.(users := st.users + [user]);
      var signedIn := SignIn(registered, deleteAnswer, created);
      match signedIn.result
      case Err(code) => Step(Err(code), signedIn.state)
      case Ok(_) => Step(Ok(user), signedIn.state)
  }

  /** `signOut()`: `account.deleteSession("current")`, every error rethrown. */
  function SignOut(st: AuthState, answer: Answer): (r: Step<()>)
    ensures r.result.Ok? <==> answer.Succeeds? && st.current.Some?
    ensures r.result.Err? ==> r.result.code == (if answer.FailsWith? then answer.code else Unauthorized)
    ensures r.result.Ok? ==> r.state.current.None?
    ensures r.result.Err? ==> r.state == st
    ensures r.state.users == st.users
  {
    DeleteCurrentSession(st, answer)
  }

  /** `getCurrentUser()`: never throws; any failure of `account.get()`
      becomes `null` (None). */
  function GetCurrentUser(st: AuthState, answer: Answer): (r: Option<User>)
    ensures r.Some? <==> answer.Succeeds? && st.current.Some?
    ensures r.Some? ==> r.value == st.current.value.user
  {
    match AccountGet(st, answer)
    case Ok(user) => Some(user)
    case Err(_) => None
  }

  /** The outcome of `signIn` does not depend on whether the preliminary
      session removal succeeded, and neither does the state it leaves after a
      successful sign-in. */
  lemma SignInIgnoresDeleteFailure(st: AuthState, d1: Answer, d2: Answer, created: Result<Session>)
    ensures SignIn(st, d1, created).result == SignIn(st, d2, created).result
    ensures created.Ok? ==> SignIn(st, d1, created).state == SignIn(st, d2, created).state
  {
  }

  /** Signing in while already signed in leaves exactly the new session. */
  lemma SignInReplacesSession(st: AuthState, deleteAnswer: Answer, s: Session)
    requires st.current.Some?
    ensures SignIn(st, deleteAnswer, Ok(s)).state.current == Some(s)
  {
  }

  /** A sign-up whose sign-in fails reports failure although the account
      now exists. */
  lemma SignUpFailureKeepsAccount(
    st: AuthState, user: User, d1: Answer, d2: Answer, code: int)
    ensures var r1 := SignUp(st, Ok(user), d1, Err(code));
      var r2 := SignUp(st, Ok(user), d2, Err(code));
      && r1.result == r2.result == Err(code)
      && r1.state.users == r2.state.users == st.users + [user]
      && user in r1.state.users
  {
  }

  /** The session `signIn` opens inside `signUp` is for the email and
      password just registered; with the service matching them to the new
      account (`session.user == user`), a successful sign-up leaves that
      account as the current user. */
  lemma SignUpThenUser(
    st: AuthState, user: User, deleteAnswer: Answer, s: Session, getAnswer: Answer)
    requires s.user == user
    ensures var r := SignUp(st, Ok(user), deleteAnswer, Ok(s));
      && r.result == Ok(user)
      && GetCurrentUser(r.state, getAnswer) == if getAnswer.Succeeds? then Some(user) else None
  {
  }

  /** A failed sign-in has still run the preliminary removal: when that
      succeeded the device is signed out, not left in its earlier session. */
  lemma FailedSignInSignsOut(st: AuthState, code: int, getAnswer: Answer)
    requires st.current.Some?
    ensures var r := SignIn(st, Succeeds, Err(code));
      r.result == Err(code) && GetCurrentUser(r.state, getAnswer).None?
  {
  }

  /** After a successful sign-out the current user lookup yields null, however
      the service answers it. */
  lemma SignOutThenNoUser(st: AuthState, answer: Answer, getAnswer: Answer)
    requires SignOut(st, answer).result.Ok?
    ensures GetCurrentUser(SignOut(st, answer).state, getAnswer).None?
  {
  }

  /** After a successful sign-in the current user is the session's user,
      unless the lookup itself fails. */
  lemma SignInThenUser(st: AuthState, deleteAnswer: Answer, s: Session, getAnswer: Answer)
    ensures var after := SignIn(st, deleteAnswer, Ok(s)).state;
      GetCurrentUser(after, getAnswer) == if getAnswer.Succeeds? then Some(s.user) else None
  {
  }

  /** Sign-out followed by sign-in with the same account restores a session
      of that user. */
  lemma SignOutThenSignIn(
    st: AuthState, outAnswer: Answer, deleteAnswer: Answer, s: Session)
    requires st.current.Some? && s.user == st.current.value.user
    ensures var out := SignOut(st, outAnswer).state;
      var back := SignIn(out, deleteAnswer, Ok(s)).state;
      GetCurrentUser(back, Succeeds) == GetCurrentUser(st, Succeeds)
  {
  }
}

=== FILE: domain.dfy ===
/** Values shared by the whole client: optional values, the outcome of a remote
    call, the way the remote service answers one call, and the movie payload. */
module Domain {

  /** A value that may be absent (`null` / `undefined` in the client). */
  datatype Option<T> = None | Some(value: T)

  /** What an awaited remote call yields to its caller: a value, or the error
      it throws, identified by the service's numeric error code. */
  datatype Result<T> = Ok(value: T) | Err(code: int)

  /** How the remote service answers one call. The service, the network and the
      user's credentials are outside the client, so every call's fate is an
      input of the model: the call is carried out, or it fails with a code. */
  datatype Answer = Succeeds | FailsWith(code: int)

  /** The movie payload as the catalogue API delivers it. Its fields are passed
      through unchanged; `posterPath` is relative to the image host, and the
      empty string stands for a missing poster. */
  datatype Movie = Movie(
    id: int,
    title: string,
    posterPath: string,
    voteAverage: real,
    releaseDate: string)

  /** Image host prefix that turns a relative poster path into a URL. */
  const PosterPrefix: string := "https://image.tmdb.org/t/p/w500"

  /** Error code with which the service rejects a write that conflicts with an
      existing document. */
  const Conflict: int := 409

  /** Error code with which the service rejects a call that names a document
      that does not exist. */
  const NotFound: int := 404

  /** Error code with which the service rejects an account call made without
      a session. */
  const Unauthorized: int := 401

  /** Number of documents a list call returns when its query sets no limit:
      the service's default page. */
  const DefaultPage: nat := 25

  /** The poster URL stored with a document: the prefix followed by the path. */
  function PosterUrl(posterPath: string): (url: string)
    ensures |url| == |PosterPrefix| + |posterPath|
    ensures url[..|PosterPrefix|] == PosterPrefix
    ensures url[|PosterPrefix|..] == posterPath
  {
    PosterPrefix + posterPath
  }
}

=== FILE: layout.dfy ===
/** The navigation gate of app/_layout.tsx: `InitialLayout` renders a loading
    indicator while the session is being resolved, and its effect sends a
    logged-in user out of the `(auth)` route group and a logged-out user into
    it. The loading and login flags are inputs. */
module Layout {

  /** What the effect asks of the router. */
  datatype Redirect = NoRedirect | Replace(path: string)

  /** What the layout renders. */
  datatype Screen = LoadingIndicator | RouteStack

  const AuthGroup: string := "(auth)"
  const Home: string := "/"
  const SignIn: string := "/sign-in"

  /** The current route lies in the `(auth)` group. An empty segment list has
      no first segment, which is not the group's name. */
  predicate InAuthGroup(segments: seq<string>) {
    |segments| > 0 && segments[0] == AuthGroup
  }

  /** The state the gate aims for: signed-in users outside `(auth)`,
      signed-out users inside it. */
  predicate Settled(isLoggedIn: bool, segments: seq<string>) {
    isLoggedIn != InAuthGroup(segments)
  }

  /** The decision the effect takes on each evaluation. */
  function RedirectFor(isLoading: bool, isLoggedIn: bool, segments: seq<string>): (r: Redirect)
    ensures isLoading ==> r == NoRedirect
    ensures r == Replace(Home) <==> !isLoading && isLoggedIn && InAuthGroup(segments)
    ensures r == Replace(SignIn) <==> !isLoading && !isLoggedIn && !InAuthGroup(segments)
    ensures r == NoRedirect || r == Replace(Home) || r == Replace(SignIn)
  {
    if isLoading then NoRedirect
    else
      var inAuthGroup := InAuthGroup(segments);
      if isLoggedIn && inAuthGroup then Replace(Home)
      else if !isLoggedIn && !inAuthGroup then Replace(SignIn)
      else NoRedirect
  }

  /** What `InitialLayout` renders: the indicator alone while loading. */
  function ScreenFor(isLoading: bool): (s: Screen)
    ensures s == LoadingIndicator <==> isLoading
  {
    if isLoading then LoadingIndicator else RouteStack
  }

  /** Once loading is over, the gate redirects exactly when the route group
      disagrees with the login state, and only towards the group that agrees. */
  lemma RedirectsExactlyWhenUnsettled(isLoggedIn: bool, segments: seq<string>)
    ensures RedirectFor(false, isLoggedIn, segments) == NoRedirect <==> Settled(isLoggedIn, segments)
    ensures RedirectFor(false, isLoggedIn, segments) != NoRedirect ==>
      RedirectFor(false, isLoggedIn, segments) == Replace(if isLoggedIn then Home else SignIn)
  {
  }

  /** The decision reads nothing of the route but its first segment. */
  lemma DependsOnFirstSegmentOnly(isLoading: bool, isLoggedIn: bool, s1: seq<string>, s2: seq<string>)
    requires |s1| > 0 && |s2| > 0 && s1[0] == s2[0]
    ensures RedirectFor(isLoading, isLoggedIn, s1) == RedirectFor(isLoading, isLoggedIn, s2)
  {
  }

  /** The route layout is not part of this model; assuming that "/sign-in"
      lies in `(auth)` and "/" does not, the route a redirect lands on is
      settled, so the next evaluation issues no further redirect. */
  lemma RedirectSettles(
    isLoggedIn: bool, segments: seq<string>, signInSegments: seq<string>, homeSegments: seq<string>)
    requires InAuthGroup(signInSegments) && !InAuthGroup(homeSegments)
    ensures var landing := match RedirectFor(false, isLoggedIn, segments)
        case NoRedirect => segments
        case Replace(path) => if path == Home then homeSegments else signInSegments;
      RedirectFor(false, isLoggedIn, landing) == NoRedirect
  {
  }
}

=== FILE: movie_card.dfy ===
/** The decision logic of components/MovieCard.tsx: the save/remove button's
    `handleAction`, and the two strings the card derives from the movie (the
    poster URI and the release year). */
module MovieCard {
  import opened Domain
  import Accounts
  import SavedMovies

  /** Image shown when the movie has no poster. */
  const Placeholder: string := "https://placehold.co/600x400/1a1a1a/FFFFFF.png"

  /** The card's props: the movie, the id of its saved document when the card
      sits in the saved list, and whether an `onRefresh` callback was passed. */
  datatype Card = Card(movie: Movie, savedDocId: Option<string>, hasRefresh: bool)

  /** The saved-document id when it is truthy: present and non-empty. */
  function DocIdOf(card: Card): (docId: Option<string>)
    ensures docId.Some? <==> card.savedDocId.Some? && |card.savedDocId.value| > 0
    ensures docId.Some? ==> docId.value == card.savedDocId.value
  {
    match card.savedDocId
    case Some(id) => if id != "" then Some(id) else None
    case None => None
  }

  /** A call the card makes into the service layer. */
  datatype Call = RemoveCall(docId: string) | SaveCall(userId: string, movie: Movie)

  /** An alert shown to the user: its title and message. */
  datatype Alert = Alert(title: string, message: string)

  const LoginRequired: Alert := Alert("Error", "You must be logged in to do this")
  const Removed: Alert := Alert("Success", "Movie removed from saved list!")
  const Added: Alert := Alert("Success", "Movie added to saved list!")
  const AlreadySaved: Alert := Alert("Info", "Movie is already saved")

  /** Everything one press of the button does: the calls made, the alert
      shown, whether `onRefresh` fired, the successive values given to
      `isProcessing`, and the saved-movies collection afterwards. */
  datatype Effects = Effects(
    calls: seq<Call>,
    alert: Alert,
    refreshed: bool,
    processing: seq<bool>,
    store: SavedMovies.Collection)

  /** The alert for an error thrown by the save or the removal: a conflict
      reads as "already saved" whichever was attempted; anything else names
      the action that failed. */
  function FailureAlert(code: int, removing: bool): (a: Alert)
    ensures a.title == "Info" <==> code == Conflict
    ensures a.title != "Success"
    ensures code == Conflict ==> a == AlreadySaved
    ensures code != Conflict ==>
      a == Alert("Error", if removing then "Failed to remove movie" else "Failed to save movie")
  {
    if code == Conflict then AlreadySaved
    else Alert("Error", "Failed to " + (if removing then "remove" else "save") + " movie")
  }

  /** `handleAction`: without a user, only an alert; otherwise mark the card
      as processing, remove the saved document when the card has a truthy
      `savedDocId` and save the movie for the user when it has not, report the
      outcome, and clear the processing mark. `answer` is the service's answer
      to the one call made, `newId` the id a save would create. */
  function HandleAction(
    card: Card, user: Option<Accounts.User>, store: SavedMovies.Collection,
    newId: string, answer: Answer): (r: Effects)
    ensures user.None? ==> r == Effects([], LoginRequired, false, [], store)
    ensures user.Some? ==> r.processing == [true, false] && |r.calls| == 1
    ensures user.Some? && DocIdOf(card).Some? ==> r.calls == [RemoveCall(DocIdOf(card).value)]
    ensures user.Some? && DocIdOf(card).None? ==> r.calls == [SaveCall(user.value.id, card.movie)]
    ensures r.refreshed ==>
      && card.hasRefresh && DocIdOf(card).Some?
      && r.calls == [RemoveCall(DocIdOf(card).value)]
      && SavedMovies.Fresh(r.store, DocIdOf(card).value) && |r.store| < |store|
    ensures user.Some? && DocIdOf(card).Some? && card.hasRefresh && r.alert == Removed ==> r.refreshed
    ensures answer == FailsWith(Conflict) && user.Some? ==> r.alert == AlreadySaved
    ensures user.Some? && answer.FailsWith? && answer.code != Conflict ==>
      r.alert == Alert("Error", if DocIdOf(card).Some? then "Failed to remove movie" else "Failed to save movie")
    ensures user.Some? && answer.Succeeds? && DocIdOf(card).None? ==> r.alert == Added
    ensures user.Some? && answer.Succeeds? && DocIdOf(card).Some? ==>
      r.alert == (if SavedMovies.Fresh(store, DocIdOf(card).value)
                  then Alert("Error", "Failed to remove movie") else Removed)
    ensures r.alert.title == "Success" ==> answer.Succeeds?
    ensures r.alert.title != "Success" ==> r.store == store
    ensures r.alert == Added ==> |r.store| == |store| + 1 && r.store[..|store|] == store
    ensures r.alert == Added ==> user.Some? && r.store[|store|] == SavedMovies.DocFor(newId, user.value.id, card.movie)
    ensures r.alert == Removed ==>
      && DocIdOf(card).Some? && SavedMovies.Fresh(r.store, DocIdOf(card).value) && |r.store| < |store|
      && (forall d | d in store && d.id != DocIdOf(card).value :: d in r.store)
      && (forall d | d in r.store :: d in store)
  {
    match user
    case None => Effects([], LoginRequired, false, [], store)
    case Some(u) =>
      if DocIdOf(card).Some? then
        var docId := DocIdOf(card).value;
        var removal := SavedMovies.RemoveSavedMovie(store, docId, answer);
        if removal.result.Ok? then
          Effects([RemoveCall(docId)], Removed, card.hasRefresh, [true, false], removal.store)
        else
          Effects([RemoveCall(docId)], FailureAlert(removal.result.code, true), false, [true, false], removal.store)
      else
        var save := SavedMovies.SaveMovie(store, u.id, card.movie, newId, answer);
        if save.result.Ok? then
          Effects([SaveCall(u.id, card.movie)], Added, false, [true, false], save.store)
        else
          Effects([SaveCall(u.id, card.movie)], FailureAlert(save.result.code, false), false, [true, false], save.store)
  }

  /** The button is disabled while the card is processing: a press then does
      nothing at all; otherwise it runs `handleAction`. */
  function Press(
    isProcessing: bool, card: Card, user: Option<Accounts.User>,
    store: SavedMovies.Collection, newId: string, answer: Answer): (r: Option<Effects>)
    ensures r.None? <==> isProcessing
    ensures r.Some? ==> r.value == HandleAction(card, user, store, newId, answer)
  {
    if isProcessing then None else Some(HandleAction(card, user, store, newId, answer))
  }

  /** `onRefresh` fires exactly after a successful removal on a card that was
      given the callback: never after a save, never after a failure. */
  lemma RefreshExactlyAfterRemoval(
    card: Card, user: Option<Accounts.User>, store: SavedMovies.Collection,
    newId: string, answer: Answer)
    ensures HandleAction(card, user, store, newId, answer).refreshed
        <==> && user.Some? && DocIdOf(card).Some? && card.hasRefresh
             && SavedMovies.RemoveSavedMovie(store, DocIdOf(card).value, answer).result.Ok?
  {
  }

  /** Removing the card's document takes that one document out of the
      saved list and keeps every other in its place. */
  lemma HandleRemovalDropsOne(
    card: Card, user: Accounts.User, store: SavedMovies.Collection, newId: string, k: nat)
    requires SavedMovies.IdsUnique(store) && k < |store|
    requires DocIdOf(card) == Some(store[k].id)
    ensures var r := HandleAction(card, Some(user), store, newId, Succeeds);
      r.alert == Removed && r.store == store[..k] + store[k + 1..]
  {
    SavedMovies.RemoveDropsOne(store, k);
  }

  /** Removing a card whose document is already gone reports a failure to
      remove rather than success. */
  lemma RemovingAbsentDocumentFails(
    card: Card, user: Accounts.User, store: SavedMovies.Collection, newId: string)
    requires DocIdOf(card).Some? && SavedMovies.Fresh(store, DocIdOf(card).value)
    ensures var r := HandleAction(card, Some(user), store, newId, Succeeds);
      && r.alert == Alert("Error", "Failed to remove movie")
      && !r.refreshed
      && r.store == store
  {
  }

  /** A successful save files the card's movie under the user's id, where a
      list of the user's saves that still has room on its page shows it. */
  lemma SaveFilesUnderUser(
    card: Card, user: Accounts.User, store: SavedMovies.Collection, newId: string)
    requires DocIdOf(card).None?
    requires |SavedMovies.OwnedBy(store, user.id)| < DefaultPage
    ensures var r := HandleAction(card, Some(user), store, newId, Succeeds);
      && r.alert == Added
      && SavedMovies.DocFor(newId, user.id, card.movie)
           in SavedMovies.GetSavedMovies(r.store, user.id, Succeeds).value
  {
    SavedMovies.SaveThenListed(store, user.id, card.movie, newId, Succeeds);
  }

  /** The poster URI: the image host prefix followed by the poster path, or
      the placeholder when the path is empty. */
  function PosterUri(posterPath: string): (uri: string)
    ensures uri == Placeholder <==> posterPath == ""
    ensures posterPath != "" ==>
      && |uri| == |PosterPrefix| + |posterPath|
      && uri[..|PosterPrefix|] == PosterPrefix
      && uri[|PosterPrefix|..] == posterPath
  {
    if posterPath != "" then
      var uri := PosterUrl(posterPath);
      assert uri[8] == 'i' && Placeholder[8] == 'p';
      uri
    else Placeholder
  }

  /** `release_date.split('-')[0]`: the text before the first '-', or the
      whole date when it has none. */
  function ReleaseYear(date: string): (year: string)
    ensures |year| <= |date| && year == date[..|year|]
    ensures forall i | 0 <= i < |year| :: year[i] != '-'
    ensures |year| < |date| ==> date[|year|] == '-'
  {
    if |date| == 0 || date[0] == '-' then ""
    else [date[0]] + ReleaseYear(date[1..])
  }

  /** Splitting recovers the year: for a year without '-', the year of
      `year + "-" + rest` is `year`, and a date without '-' is its own year. */
  lemma {:induction false} ReleaseYearOfDate(year: string, rest: string)
    requires forall i | 0 <= i < |year| :: year[i] != '-'
    ensures ReleaseYear(year + "-" + rest) == year
    ensures ReleaseYear(year) == year
  {
    var date := year + "-" + rest;
    var y := ReleaseYear(date);
    assert forall i | 0 <= i < |y| :: date[i] == y[i] != '-';
    assert forall i | 0 <= i < |year| :: date[i] == year[i] != '-';
    assert date[|year|] == '-';
    assert |y| == |year|;
    assert y == date[..|year|];
  }
}

=== FILE: saved_movies.dfy ===
/** The saved-movie functions of services/appwrite.ts: `saveMovie`,
    `removeSavedMovie` and `getSavedMovies` over the `saved_movies`
    collection, a sequence of documents in listing order. */
module SavedMovies {
  import opened Domain

  /** One document of the saved-movies collection. */
  datatype SavedDoc = SavedDoc(
    id: string,
    userId: string,
    movieId: int,
    title: string,
    posterUrl: string,
    voteAverage: real,
    releaseDate: string)

  type Collection = seq<SavedDoc>

  /** The service's document ids identify documents. */
  predicate IdsUnique(c: Collection) {
    forall i, j | 0 <= i < j < |c| :: c[i].id != c[j].id
  }

  /** `id` names no document of `c`. */
  predicate Fresh(c: Collection, id: string) {
    forall i | 0 <= i < |c| :: c[i].id != id
  }

  /** Outcome of one call together with the collection it leaves behind. */
  datatype Step = Step(result: Result<()>, store: Collection)

  /** The document `saveMovie` writes for `movie` on behalf of `userId`. */
  function DocFor(id: string, userId: string, movie: Movie): SavedDoc {
    SavedDoc(id, userId, movie.id, movie.title, PosterUrl(movie.posterPath),
             movie.voteAverage, movie.releaseDate)
  }

  /** `saveMovie(userId, movie)`: creates the document without looking for an
      existing one first; whether the service refuses a duplicate is its own
      answer. Every failure is rethrown. */
  function SaveMovie(c: Collection, userId: string, movie: Movie, newId: string, answer: Answer): (r: Step)
    ensures r.result.Ok? <==> answer.Succeeds?
    ensures r.result.Err? ==> r.result.code == answer.code && r.store == c
    ensures r.result.Ok? ==> |r.store| == |c| + 1 && r.store[..|c|] == c
    ensures r.result.Ok? ==> var d := r.store[|c|];
      && d.id == newId && d.userId == userId && d.movieId == movie.id
      && d.title == movie.title && d.posterUrl == PosterPrefix + movie.posterPath
      && d.voteAverage == movie.voteAverage && d.releaseDate == movie.releaseDate
  {
    if answer.FailsWith? then Step(Err(answer.code), c)
    else Step(Ok(()), c + [DocFor(newId, userId, movie)])
  }

  /** The collection without the documents whose id is `id`. */
  function Without(c: Collection, id: string): (r: Collection)
    ensures |r| <= |c|
    ensures Fresh(r, id)
    ensures forall d | d in c && d.id != id :: d in r
    ensures forall d | d in r :: d in c
    ensures !Fresh(c, id) ==> |r| < |c|
  {
    if |c| == 0 then []
    else if c[0].id == id then Without(c[1..], id)
    else
      assert !Fresh(c, id) ==> !Fresh(c[1..], id) by {
        if !Fresh(c, id) {
          var i :| 0 <= i < |c| && c[i].id == id;
          assert c[1..][i - 1] == c[i];
        }
      }
      [c[0]] + Without(c[1..], id)
  }

  /** `removeSavedMovie(documentId)`: the service deletes the document, or
      refuses with not-found when there is none; every failure, not-found
      included, is rethrown. */
  function RemoveSavedMovie(c: Collection, docId: string, answer: Answer): (r: Step)
    ensures r.result.Ok? <==> answer.Succeeds? && !Fresh(c, docId)
    ensures answer.FailsWith? ==> r.result == Err(answer.code)
    ensures answer.Succeeds? && Fresh(c, docId) ==> r.result == Err(NotFound)
    ensures r.result.Err? ==> r.store == c
    ensures r.result.Ok? ==> Fresh(r.store, docId) && |r.store| < |c|
    ensures forall d | d in c && d.id != docId :: d in r.store
    ensures forall d | d in r.store :: d in c
  {
    if answer.FailsWith? then Step(Err(answer.code), c)
    else if Fresh(c, docId) then Step(Err(NotFound), c)
    else Step(Ok(()), Without(c, docId))
  }

  /** The service's answer to `Query.equal("userId", userId)`. */
  function OwnedBy(c: Collection, userId: string): (r: seq<SavedDoc>)
    ensures |r| <= |c|
    ensures forall d | d in r :: d in c && d.userId == userId
    ensures forall d | d in c && d.userId == userId :: d in r
  {
    if |c| == 0 then []
    else if c[0].userId == userId then [c[0]] + OwnedBy(c[1..], userId)
    else OwnedBy(c[1..], userId)
  }

  /** Appending a document extends the user's documents by it exactly when
      it is theirs. */
  lemma {:induction false} OwnedByAppend(c: Collection, d: SavedDoc, userId: string)
    ensures OwnedBy(c + [d], userId) == OwnedBy(c, userId) + (if d.userId == userId then [d] else [])
  {
    if |c| > 0 {
      assert (c + [d])[1..] == c[1..] + [d];
      OwnedByAppend(c[1..], d, userId);
    }
  }

  /** `getSavedMovies(userId)`: the user's documents in listing order, cut to
      the service's default page since the query sets no limit; a failure is
      rethrown, not turned into an empty list. */
  function GetSavedMovies(c: Collection, userId: string, answer: Answer): (r: Result<seq<SavedDoc>>)
    ensures r.Err? <==> answer.FailsWith?
    ensures r.Err? ==> r.code == answer.code
    ensures r.Ok? ==> forall d | d in r.value :: d in c && d.userId == userId
    ensures r.Ok? ==>
      && |r.value| == (if |OwnedBy(c, userId)| < DefaultPage then |OwnedBy(c, userId)| else DefaultPage)
      && r.value == OwnedBy(c, userId)[..|r.value|]
    ensures r.Ok? && |OwnedBy(c, userId)| <= DefaultPage ==>
      forall d | d in c && d.userId == userId :: d in r.value
  {
    if answer.FailsWith? then Err(answer.code)
    else
      var owned := OwnedBy(c, userId);
      if |owned| <= DefaultPage then Ok(owned) else Ok(owned[..DefaultPage])
  }

  /** Number of documents recording that `userId` saved `movieId`. */
  function Copies(c: Collection, userId: string, movieId: int): nat {
    if |c| == 0 then 0
    else (if c[0].userId == userId && c[0].movieId == movieId then 1 else 0)
         + Copies(c[1..], userId, movieId)
  }

  lemma {:induction false} CopiesAppend(c: Collection, d: SavedDoc, userId: string, movieId: int)
    ensures Copies(c + [d], userId, movieId)
         == Copies(c, userId, movieId) + (if d.userId == userId && d.movieId == movieId then 1 else 0)
  {
    if |c| > 0 {
      assert (c + [d])[1..] == c[1..] + [d];
      CopiesAppend(c[1..], d, userId, movieId);
    }
  }

  /** `saveMovie` does no pre-check: unless the service refuses it, saving a
      movie the user already saved adds a second document for the pair. */
  lemma {:induction false} SaveAddsACopy(c: Collection, userId: string, movie: Movie, newId: string)
    ensures Copies(SaveMovie(c, userId, movie, newId, Succeeds).store, userId, movie.id)
         == Copies(c, userId, movie.id) + 1
  {
    CopiesAppend(c, DocFor(newId, userId, movie), userId, movie.id);
  }

  /** A saved movie shows up in the user's list while the list fits in one
      page. */
  lemma SaveThenListed(c: Collection, userId: string, movie: Movie, newId: string, listAnswer: Answer)
    requires listAnswer.Succeeds?
    requires |OwnedBy(c, userId)| < DefaultPage
    ensures var after := SaveMovie(c, userId, movie, newId, Succeeds).store;
      DocFor(newId, userId, movie) in GetSavedMovies(after, userId, listAnswer).value
  {
    OwnedByAppend(c, DocFor(newId, userId, movie), userId);
  }

  /** With a full page of saves already, a new save is stored but is not in
      the list `getSavedMovies` returns, which holds the first page only. */
  lemma {:induction false} SaveBeyondPageUnlisted(c: Collection, userId: string, movie: Movie, newId: string)
    requires Fresh(c, newId)
    requires |OwnedBy(c, userId)| >= DefaultPage
    ensures var after := SaveMovie(c, userId, movie, newId, Succeeds).store;
      && DocFor(newId, userId, movie) in after
      && DocFor(newId, userId, movie) !in GetSavedMovies(after, userId, Succeeds).value
  {
    var d := DocFor(newId, userId, movie);
    var after := SaveMovie(c, userId, movie, newId, Succeeds).store;
    assert after[|c|] == d;
    OwnedByAppend(c, d, userId);
    var page := GetSavedMovies(after, userId, Succeeds).value;
    assert page == OwnedBy(c, userId)[..DefaultPage];
    assert forall x | x in page :: x in c && x.id != newId;
  }

  /** A removed document is gone from every user's list. */
  lemma RemoveThenUnlisted(c: Collection, docId: string, userId: string)
    requires RemoveSavedMovie(c, docId, Succeeds).result.Ok?
    ensures var after := RemoveSavedMovie(c, docId, Succeeds).store;
      forall d | d in GetSavedMovies(after, userId, Succeeds).value :: d.id != docId
  {
  }

  /** Deleting an id no document carries leaves the collection as it was. */
  lemma {:induction false} WithoutFresh(c: Collection, id: string)
    requires Fresh(c, id)
    ensures Without(c, id) == c
  {
    if |c| > 0 {
      assert forall i | 0 <= i < |c[1..]| :: c[1..][i] == c[i + 1];
      WithoutFresh(c[1..], id);
    }
  }

  /** With unique ids, deleting the document at position `k` takes out that
      one document and leaves every other in its place in the listing. */
  lemma {:induction false} WithoutDropsOne(c: Collection, k: nat)
    requires IdsUnique(c) && k < |c|
    ensures Without(c, c[k].id) == c[..k] + c[k + 1..]
  {
    if k == 0 {
      TailFresh(c);
      WithoutFresh(c[1..], c[0].id);
      assert c[k + 1..] == c[1..];
    } else {
      var id := c[k].id;
      TailIdsUnique(c);
      assert c[0].id != id;
      WithoutDropsOne(c[1..], k - 1);
      assert c[1..][k - 1] == c[k];
      assert c[..k] == [c[0]] + c[1..][..k - 1];
      assert c[k + 1..] == c[1..][k..];
    }
  }

  /** With unique ids, the first document's id is on no later document. */
  lemma TailFresh(c: Collection)
    requires IdsUnique(c) && |c| > 0
    ensures Fresh(c[1..], c[0].id)
  {
    forall i | 0 <= i < |c[1..]|
      ensures c[1..][i].id != c[0].id
    {
      assert c[1..][i] == c[i + 1];
    }
  }

  /** Dropping the first document keeps ids unique. */
  lemma TailIdsUnique(c: Collection)
    requires IdsUnique(c) && |c| > 0
    ensures IdsUnique(c[1..])
  {
    forall i, j | 0 <= i < j < |c[1..]|
      ensures c[1..][i].id != c[1..][j].id
    {
      assert c[1..][i] == c[i + 1] && c[1..][j] == c[j + 1];
    }
  }

  /** A successful removal of the document at position `k` leaves the
      listing as it was, with that one document taken out. */
  lemma RemoveDropsOne(c: Collection, k: nat)
    requires IdsUnique(c) && k < |c|
    ensures RemoveSavedMovie(c, c[k].id, Succeeds) == Step(Ok(()), c[..k] + c[k + 1..])
  {
    WithoutDropsOne(c, k);
  }

  /** Removal is not idempotent: removing the same document twice rethrows
      not-found the second time. */
  lemma RemoveTwiceFails(c: Collection, docId: string)
    requires RemoveSavedMovie(c, docId, Succeeds).result.Ok?
    ensures var after := RemoveSavedMovie(c, docId, Succeeds).store;
      RemoveSavedMovie(after, docId, Succeeds) == Step(Err(NotFound), after)
  {
  }

  /** A user with no saved movies gets an empty list, not an error. */
  lemma {:induction false} NoSavesListsEmpty(c: Collection, userId: string)
    requires forall i | 0 <= i < |c| :: c[i].userId != userId
    ensures GetSavedMovies(c, userId, Succeeds) == Ok([])
  {
    if |c| > 0 {
      assert forall i | 0 <= i < |c[1..]| :: c[1..][i] == c[i + 1];
      NoSavesListsEmpty(c[1..], userId);
    }
  }

  /** Ids stay unique through saves with fresh ids. */
  lemma SaveKeepsIdsUnique(c: Collection, userId: string, movie: Movie, newId: string, answer: Answer)
    requires IdsUnique(c) && Fresh(c, newId)
    ensures IdsUnique(SaveMovie(c, userId, movie, newId, answer).store)
  {
  }
}

=== FILE: search_metrics.dfy ===
/** The search-count aggregator of services/appwrite.ts: `updateSearchCount`
    upserts one counter document per search term, and `getTrendingMovies`
    reads the five highest counters back. The remote collection is a sequence
    of documents in the order the service lists them. */
module SearchMetrics {
  import opened Domain

  /** One document of the metrics collection. */
  datatype Metric = Metric(
    id: string,
    searchTerm: string,
    movieId: int,
    title: string,
    count: int,
    posterUrl: string)

  /** The metrics collection, in the service's listing order. */
  type Collection = seq<Metric>

  /** The service's document ids identify documents. */
  predicate IdsUnique(c: Collection) {
    forall i, j | 0 <= i < j < |c| :: c[i].id != c[j].id
  }

  /** `id` names no document of `c` (the promise of `ID.unique()`). */
  predicate Fresh(c: Collection, id: string) {
    forall i | 0 <= i < |c| :: c[i].id != id
  }

  /** The aggregation invariant: no two documents share a search term. */
  predicate AtMostOnePerTerm(c: Collection) {
    forall i, j | 0 <= i < j < |c| :: c[i].searchTerm != c[j].searchTerm
  }

  /** Position of the first document whose term equals `query`, if any. */
  function FirstMatch(c: Collection, query: string): (k: Option<nat>)
    ensures k.None? ==> forall i | 0 <= i < |c| :: c[i].searchTerm != query
    ensures k.Some? ==> k.value < |c| && c[k.value].searchTerm == query
    ensures k.Some? ==> forall i | 0 <= i < k.value :: c[i].searchTerm != query
  {
    if |c| == 0 then None
    else if c[0].searchTerm == query then Some(0)
    else match FirstMatch(c[1..], query)
      case None => None
      case Some(k) => Some(k + 1)
  }

  /** The service's answer to `Query.equal("searchTerm", query)`: the documents
      whose term equals `query` character for character, in listing order. */
  function ListByTerm(c: Collection, query: string): (docs: seq<Metric>)
    ensures forall i | 0 <= i < |docs| :: docs[i].searchTerm == query
    ensures |docs| == 0 <==> FirstMatch(c, query).None?
    ensures |docs| > 0 ==> docs[0] == c[FirstMatch(c, query).value]
  {
    if |c| == 0 then []
    else if c[0].searchTerm == query then [c[0]] + ListByTerm(c[1..], query)
    else ListByTerm(c[1..], query)
  }

  /** The service's `updateDocument(id, {count: n})`: the document with that
      id gets the new count, every other document is left as it was. */
  function UpdateCount(c: Collection, id: string, n: int): (r: Collection)
    ensures |r| == |c|
    ensures forall i {:trigger r[i]} | 0 <= i < |c| ::
      r[i] == if c[i].id == id then c[i].(count := n) else c[i]
  {
    if |c| == 0 then []
    else [if c[0].id == id then c[0].(count := n) else c[0]] + UpdateCount(c[1..], id, n)
  }

  /** The document `updateSearchCount` creates for a term seen for the first time. */
  function NewMetric(id: string, query: string, movie: Movie): Metric {
    Metric(id, query, movie.id, movie.title, 1, PosterUrl(movie.posterPath))
  }

  /** Outcome of one call together with the collection it leaves behind. */
  datatype Step = Step(result: Result<()>, store: Collection)

  /** `updateSearchCount(query, movie)`: list the documents whose term equals
      `query`; bump the first one's count, or create a fresh counter at 1.
      `list` and `write` are the service's answers to the two calls, `newId`
      the id `ID.unique()` hands out. Every failure is rethrown. */
  function UpdateSearchCount(
    c: Collection, query: string, movie: Movie, newId: string,
    list: Answer, write: Answer): (r: Step)
    ensures r.result.Err? <==> list.FailsWith? || write.FailsWith?
    ensures list.FailsWith? ==> r.result == Err(list.code)
    ensures list.Succeeds? && write.FailsWith? ==> r.result == Err(write.code)
    ensures r.result.Err? ==> r.store == c
  {
    if list.FailsWith? then Step(Err(list.code), c)
    else
      var docs := ListByTerm(c, query);
      if |docs| > 0 then
        var existing := docs[0];
        if write.FailsWith? then Step(Err(write.code), c)
        else Step(Ok(()), UpdateCount(c, existing.id, existing.count + 1))
      else
        if write.FailsWith? then Step(Err(write.code), c)
        else Step(Ok(()), c + [NewMetric(newId, query, movie)])
  }

  /** When a document with the term exists, the first one's count goes up by
      one, nothing is created and every other document is unchanged. */
  lemma IncrementsFirstMatch(
    c: Collection, query: string, movie: Movie, newId: string, k: nat)
    requires IdsUnique(c)
    requires FirstMatch(c, query) == Some(k)
    ensures var r := UpdateSearchCount(c, query, movie, newId, Succeeds, Succeeds);
      && r.result == Ok(())
      && |r.store| == |c|
      && r.store[k] == c[k].(count := c[k].count + 1)
      && forall i | 0 <= i < |c| && i != k :: r.store[i] == c[i]
  {
    UpdatesFirstMatch(c, query, movie, newId, k);
    UpdateOne(c, k, c[k].count + 1);
  }

  /** With a match at `k`, the successful call is the update of `c[k]`. */
  lemma UpdatesFirstMatch(
    c: Collection, query: string, movie: Movie, newId: string, k: nat)
    requires FirstMatch(c, query) == Some(k)
    ensures UpdateSearchCount(c, query, movie, newId, Succeeds, Succeeds)
         == Step(Ok(()), UpdateCount(c, c[k].id, c[k].count + 1))
  {
    var docs := ListByTerm(c, query);
    assert |docs| > 0 && docs[0] == c[k];
    var r := UpdateSearchCount(c, query, movie, newId, Succeeds, Succeeds);
    var u := UpdateCount(c, docs[0].id, docs[0].count + 1);
    assert r.store == u;
  }

  /** Updating by a unique id touches exactly one position. */
  lemma UpdateOne(c: Collection, k: nat, n: int)
    requires IdsUnique(c) && k < |c|
    ensures var u := UpdateCount(c, c[k].id, n);
      && u[k] == c[k].(count := n)
      && forall i | 0 <= i < |c| && i != k :: u[i] == c[i]
  {
    var u := UpdateCount(c, c[k].id, n);
    forall i | 0 <= i < |c| && i != k
      ensures u[i] == c[i]
    {
      if i < k {
        assert c[i].id != c[k].id;
      } else {
        assert c[k].id != c[i].id;
      }
    }
  }

  /** When no document carries the term, exactly one document is appended:
      the term, the movie's id and title, count 1 and the full poster URL. */
  lemma CreatesOneRecord(c: Collection, query: string, movie: Movie, newId: string)
    requires FirstMatch(c, query).None?
    ensures var r := UpdateSearchCount(c, query, movie, newId, Succeeds, Succeeds);
      && r.result == Ok(())
      && |r.store| == |c| + 1
      && r.store[..|c|] == c
      && r.store[|c|] == Metric(newId, query, movie.id, movie.title, 1, PosterPrefix + movie.posterPath)
  {
    var r := UpdateSearchCount(c, query, movie, newId, Succeeds, Succeeds);
    assert r.store == c + [NewMetric(newId, query, movie)];
  }

  /** The key is the raw query: a search for " dune " does not touch the
      counter of "Dune" but starts a counter of its own. */
  lemma RawQueryIsTheKey(movie: Movie)
    ensures var c := [Metric("a", "Dune", movie.id, movie.title, 7, "")];
      var r := UpdateSearchCount(c, " dune ", movie, "b", Succeeds, Succeeds);
      && |r.store| == 2
      && r.store[0] == c[0]
      && r.store[1].searchTerm == " dune "
      && r.store[1].count == 1
  {
    var c := [Metric("a", "Dune", movie.id, movie.title, 7, "")];
    assert c[0].searchTerm != " dune ";
    CreatesOneRecord(c, " dune ", movie, "b");
  }

  /** Ids stay unique, and no id other than `newId` appears. */
  lemma PreservesIds(
    c: Collection, query: string, movie: Movie, newId: string, list: Answer, write: Answer)
    requires IdsUnique(c) && Fresh(c, newId)
    ensures var r := UpdateSearchCount(c, query, movie, newId, list, write);
      && IdsUnique(r.store)
      && forall id | Fresh(c, id) && id != newId :: Fresh(r.store, id)
  {
  }

  /** Run one call at a time, `updateSearchCount` never creates a second
      document for a term. */
  lemma PreservesAtMostOnePerTerm(
    c: Collection, query: string, movie: Movie, newId: string, list: Answer, write: Answer)
    requires AtMostOnePerTerm(c)
    ensures AtMostOnePerTerm(UpdateSearchCount(c, query, movie, newId, list, write).store)
  {
    var r := UpdateSearchCount(c, query, movie, newId, list, write);
    if r.result.Ok? && FirstMatch(c, query).None? {
      assert r.store == c + [NewMetric(newId, query, movie)];
      forall i, j | 0 <= i < j < |r.store|
        ensures r.store[i].searchTerm != r.store[j].searchTerm
      {
        if j == |c| {
          assert r.store[i] == c[i];
        }
      }
    }
  }

  /** Total count recorded for term `t`: the sum over its documents. */
  function CountOf(c: Collection, t: string): int {
    if |c| == 0 then 0
    else (if c[0].searchTerm == t then c[0].count else 0) + CountOf(c[1..], t)
  }

  lemma {:induction false} CountOfAppend(c: Collection, m: Metric, t: string)
    ensures CountOf(c + [m], t) == CountOf(c, t) + (if m.searchTerm == t then m.count else 0)
  {
    if |c| > 0 {
      assert (c + [m])[1..] == c[1..] + [m];
      CountOfAppend(c[1..], m, t);
    }
  }

  lemma {:induction false} CountOfUpdate(c: Collection, k: nat, n: int, t: string)
    requires IdsUnique(c) && k < |c|
    ensures CountOf(UpdateCount(c, c[k].id, n), t)
         == CountOf(c, t) + (if c[k].searchTerm == t then n - c[k].count else 0)
  {
    var r := UpdateCount(c, c[k].id, n);
    assert r[1..] == UpdateCount(c[1..], c[k].id, n);
    if k == 0 {
      assert Fresh(c[1..], c[0].id);
      assert r[1..] == c[1..];
    } else {
      assert c[0].id != c[k].id;
      assert c[k] == c[1..][k - 1];
      CountOfUpdate(c[1..], k - 1, n, t);
    }
  }

  /** The counter abstraction: a successful call adds exactly one to the total
      of `query` and leaves every other term's total alone; a failed call
      changes nothing. */
  lemma {:induction false} TallyStep(
    c: Collection, query: string, movie: Movie, newId: string,
    list: Answer, write: Answer, t: string)
    requires IdsUnique(c)
    ensures var r := UpdateSearchCount(c, query, movie, newId, list, write);
      CountOf(r.store, t) == CountOf(c, t) + (if r.result.Ok? && t == query then 1 else 0)
  {
    var r := UpdateSearchCount(c, query, movie, newId, list, write);
    if r.result.Ok? {
      match FirstMatch(c, query)
      case Some(k) =>
        CountOfUpdate(c, k, c[k].count + 1, t);
      case None =>
        CountOfAppend(c, NewMetric(newId, query, movie), t);
    }
  }

  /** One search event, with the answers the service gives its two calls. */
  datatype Search = Search(
    query: string, movie: Movie, newId: string, list: Answer, write: Answer)

  /** The events' ids are pairwise distinct and none is taken in `c`. */
  predicate IdsAvailable(c: Collection, ss: seq<Search>) {
    && (forall i | 0 <= i < |ss| :: Fresh(c, ss[i].newId))
    && (forall i, j | 0 <= i < j < |ss| :: ss[i].newId != ss[j].newId)
  }

  /** The collection after the events have been recorded one after another. */
  function RunAll(c: Collection, ss: seq<Search>): Collection
    decreases |ss|
  {
    if |ss| == 0 then c
    else
      var s := ss[0];
      RunAll(UpdateSearchCount(c, s.query, s.movie, s.newId, s.list, s.write).store, ss[1..])
  }

  /** Number of events for term `t` whose two calls both went through. */
  function Hits(ss: seq<Search>, t: string): nat {
    if |ss| == 0 then 0
    else (if ss[0].query == t && ss[0].list.Succeeds? && ss[0].write.Succeeds? then 1 else 0)
         + Hits(ss[1..], t)
  }

  /** Run sequentially, the counter of every term grows by exactly the number
      of its successful searches, and each term keeps at most one document. */
  lemma {:induction false} RunAllTally(c: Collection, ss: seq<Search>, t: string)
    requires IdsUnique(c) && AtMostOnePerTerm(c) && IdsAvailable(c, ss)
    ensures CountOf(RunAll(c, ss), t) == CountOf(c, t) + Hits(ss, t)
    ensures AtMostOnePerTerm(RunAll(c, ss))
    decreases |ss|
  {
    if |ss| > 0 {
      var s := ss[0];
      var r := UpdateSearchCount(c, s.query, s.movie, s.newId, s.list, s.write);
      TallyStep(c, s.query, s.movie, s.newId, s.list, s.write, t);
      PreservesIds(c, s.query, s.movie, s.newId, s.list, s.write);
      PreservesAtMostOnePerTerm(c, s.query, s.movie, s.newId, s.list, s.write);
      forall i | 0 <= i < |ss[1..]|
        ensures Fresh(r.store, ss[1..][i].newId)
      {
        assert ss[1..][i] == ss[i + 1];
        assert ss[i + 1].newId != s.newId;
      }
      RunAllTally(r.store, ss[1..], t);
    }
  }

  /** Under the aggregation invariant, the total of a term is the count of its
      single document, or 0 when it has none. */
  lemma {:induction false} CountOfSingle(c: Collection, t: string)
    requires AtMostOnePerTerm(c)
    ensures CountOf(c, t) == match FirstMatch(c, t)
      case Some(k) => c[k].count
      case None => 0
  {
    if |c| > 0 {
      CountOfSingle(c[1..], t);
      if c[0].searchTerm == t {
        assert FirstMatch(c[1..], t).None? by {
          forall i | 0 <= i < |c[1..]|
            ensures c[1..][i].searchTerm != t
          {
            assert c[1..][i] == c[i + 1];
          }
        }
      }
    }
  }

  /** Starting from an empty collection, every term searched successfully at
      least once has exactly one document, whose count is the number of its
      successful searches. */
  lemma SearchedTermHasOneCounter(ss: seq<Search>, t: string)
    requires forall i, j | 0 <= i < j < |ss| :: ss[i].newId != ss[j].newId
    requires Hits(ss, t) > 0
    ensures var c := RunAll([], ss);
      && FirstMatch(c, t).Some?
      && c[FirstMatch(c, t).value].count == Hits(ss, t)
      && forall i | 0 <= i < |c| && c[i].searchTerm == t :: i == FirstMatch(c, t).value
  {
    var c := RunAll([], ss);
    RunAllTally([], ss, t);
    CountOfSingle(c, t);
  }

  /** Number of documents `getTrendingMovies` asks for. */
  const TrendingLimit: nat := 5

  predicate SortedByCountDesc(docs: seq<Metric>) {
    forall i, j | 0 <= i < j < |docs| :: docs[i].count >= docs[j].count
  }

  /** The service's promise for `[Query.limit(5), Query.orderDesc("count")]`:
      `limit` documents of `c` (all of them if there are fewer), highest count
      first, and none left out that counts more than one taken. */
  predicate IsTopByCount(c: Collection, docs: seq<Metric>, limit: nat) {
    && |docs| == (if |c| < limit then |c| else limit)
    && multiset(docs) <= multiset(c)
    && SortedByCountDesc(docs)
    && forall m, i | m in multiset(c) - multiset(docs) && 0 <= i < |docs| ::
         m.count <= docs[i].count
  }

  /** `getTrendingMovies()`: the served top documents, or `undefined` (None)
      when the call fails; the failure is logged, never thrown. `served` is
      what the service returns when `list` succeeds. */
  function GetTrendingMovies(c: Collection, list: Answer, served: seq<Metric>): (r: Option<seq<Metric>>)
    requires list.Succeeds? ==> IsTopByCount(c, served, TrendingLimit)
    ensures r.None? <==> list.FailsWith?
    ensures r.Some? ==> r.value == served && IsTopByCount(c, r.value, TrendingLimit)
    ensures r.Some? ==> |r.value| <= TrendingLimit && SortedByCountDesc(r.value)
    ensures r.Some? ==> forall m | m in r.value :: m in c
    ensures r.Some? && |c| > 0 ==>
      |r.value| > 0 && forall m | m in c :: m.count <= r.value[0].count
  {
    if list.FailsWith? then None
    else
      assert forall m | m in served :: m in c by {
        forall m | m in served
          ensures m in c
        {
          assert m in multiset(served);
        }
      }
      assert |c| > 0 ==> forall m | m in c :: m.count <= served[0].count by {
        forall m | m in c
          ensures m.count <= served[0].count
        {
          assert m in multiset(c);
          if m !in multiset(c) - multiset(served) {
            var i :| 0 <= i < |served| && served[i] == m;
          }
        }
      }
      Some(served)
  }

  // A reference selection, not part of the client: it shows that the reply
  // contract of `getTrendingMovies` can always be met.

  /** Inserts `m` into a list sorted by count, highest first. */
  function InsertByCount(m: Metric, s: seq<Metric>): (r: seq<Metric>)
    requires SortedByCountDesc(s)
    ensures SortedByCountDesc(r)
    ensures multiset(r) == multiset(s) + multiset{m}
    ensures |r| == |s| + 1
    ensures r[0] == m || (|s| > 0 && r[0] == s[0])
  {
    if |s| == 0 then [m]
    else if m.count >= s[0].count then [m] + s
    else
      var rest := InsertByCount(m, s[1..]);
      assert s == [s[0]] + s[1..];
      assert rest[0].count <= s[0].count;
      [s[0]] + rest
  }

  /** The collection sorted by count, highest first. */
  function SortByCount(c: Collection): (r: seq<Metric>)
    ensures SortedByCountDesc(r)
    ensures multiset(r) == multiset(c)
    ensures |r| == |c|
  {
    if |c| == 0 then []
    else
      assert c == [c[0]] + c[1..];
      InsertByCount(c[0], SortByCount(c[1..]))
  }

  /** A reply the service may give to the trending query: the first `limit`
      documents of the collection sorted by count. */
  function TopByCount(c: Collection, limit: nat): seq<Metric> {
    var sorted := SortByCount(c);
    if |sorted| <= limit then sorted else sorted[..limit]
  }

  /** In a list sorted by count, whatever lies beyond position `n` counts no
      more than anything before it. */
  lemma SortedTail(s: seq<Metric>, n: nat)
    requires SortedByCountDesc(s) && n <= |s|
    ensures forall m, i | m in multiset(s) - multiset(s[..n]) && 0 <= i < n :: m.count <= s[i].count
  {
    assert s == s[..n] + s[n..];
    assert multiset(s) - multiset(s[..n]) == multiset(s[n..]);
    forall m, i | m in multiset(s[n..]) && 0 <= i < n
      ensures m.count <= s[i].count
    {
      var j :| 0 <= j < |s[n..]| && s[n..][j] == m;
      assert s[n + j] == m;
    }
  }

  /** A prefix of a sorted permutation of `c`, as long as the limit allows,
      meets the trending contract. */
  lemma SortedPrefixIsTop(c: Collection, s: seq<Metric>, limit: nat)
    requires SortedByCountDesc(s) && multiset(s) == multiset(c) && |s| == |c|
    ensures var n := if |s| <= limit then |s| else limit;
      IsTopByCount(c, s[..n], limit)
  {
    var n := if |s| <= limit then |s| else limit;
    assert multiset(s[..n]) <= multiset(s) by {
      assert s == s[..n] + s[n..];
    }
    SortedTail(s, n);
  }

  /** The trending contract can always be met: `TopByCount` meets it for
      every collection and limit. */
  lemma TopByCountIsTop(c: Collection, limit: nat)
    ensures IsTopByCount(c, TopByCount(c, limit), limit)
  {
    var sorted := SortByCount(c);
    SortedPrefixIsTop(c, sorted, limit);
    assert TopByCount(c, limit) == sorted[..if |sorted| <= limit then |sorted| else limit];
  }
}
